=== FILE: README.md ===
# Omen event indexers: entity projection model

This project models the event-to-entity projection of the Omen indexers:
the keyed entity store and the handlers that turn decoded contract events
into store writes. Three indexers are covered.

- **Thumbnail subgraph** (The Graph). `handleImageUpdated` is a
  domain-scoped upsert. It loads the `OmenThumbnailMapping` of the event's
  market address, creates it if absent, overwrites `marketAddress` (which
  also sets `id`) and `image_hash`, and saves. `save` refuses an entity
  without `marketAddress` or `image_hash`. It writes under the hex string of
  the market address, the same key `load` reads.
- **Agent-result subgraph** (The Graph). `handlePredictionAdded` is an
  event-scoped insert. It builds a fresh `PredictionAdded` entity keyed by
  the transaction hash followed by the 4-byte log index. It copies the
  event parameters and the block and transaction metadata, then saves
  without loading anything.
- **Envio indexer**. The `PredictionAdded` and `ImageUpdated` handlers build
  one record each, with id `${chainId}_${blockNumber}_${logIndex}`. Each
  copies its parameters verbatim and issues one `set`.

The store is an immutable `map<Key, Entity>`. A `Key` pairs an entity table
with a string id, and `Entity` is a tagged variant over the four entity
kinds. The three deployments have separate stores in reality; here they
share one map, and the table component keeps them apart. Handlers are pure
functions from (event, store) to a new store. Two handlers return a
`Result` instead. The thumbnail handler does so because its `save` can be
refused. The agent-result handler does so because `toI32` can throw on the
log index.

The thumbnail entity keeps graph-ts's dynamic shape: a map from field name
to bytes, where an unset field is absent. This makes the property "fields
the event does not touch survive the upsert" meaningful.

The handlers rely on behaviour of graph-ts, which is not part of this
repository. It is modelled as follows:

- `Bytes.toHexString` is "0x" followed by two lower-case hex digits per
  byte. It is defined together with a parser, so its injectivity is proved
  rather than assumed.
- `BigInt.toI32` throws when the value does not fit in four bytes. For a
  non-negative log index, that means 2^32 or more. Otherwise it reads the
  four bytes as a two's-complement `i32`. The agent-result handler
  therefore aborts, writing nothing, on such a log index.
- `Bytes.fromI32` emits the 32-bit pattern as four little-endian bytes.
- Envio's chain id, block number and log index are JavaScript numbers.
  They are modelled as integers up to `Number.MAX_SAFE_INTEGER`
  (2^53 - 1), the range a number holds exactly. A template literal renders
  those as plain decimal digits.
- The generated schema of the agent-result `PredictionAdded` entity is not
  part of this model. It is modelled like the thumbnail schema: a `Bytes` id
  stored under its hex string, and saved unconditionally since every field
  is set by the handler.

Two tests disagree with the handlers, and the model follows the handlers:

- `omen-agentresultmapping/tests/omen-agent-result-mapping.test.ts:52`
  expects an id of the form `0x…-1` and a `txHashes` field. The handler
  uses `concatI32` and a `txHash` field.
- `omen-thumbnailmapping/tests/contract.test.ts:48-53` expects a `changer`
  field. Neither the handler nor the schema ever sets one.

## Model

| member | source | states |
|---|---|---|
| ByteStrings.HexInjective | graphs/omen-thumbnailmapping/src/schema.ts:29 | Two byte strings have the same hex rendering exactly when they are equal, so a hex key names one address |
| ByteStrings.ToHexString | graphs/omen-thumbnailmapping/src/schema.ts:29 | The key rendering is "0x" and two lower-case hex digits per byte, and it parses back to the bytes it came from |
| ByteStrings.ToI32 | graphs/omen-agentresultmapping/src/omen-agent-result-mapping.ts:6 | Fails with an overflow exactly when the log index is 2^32 or more; otherwise gives a signed 32-bit value equal to the index modulo 2^32 |
| ByteStrings.FromI32 | graphs/omen-agentresultmapping/src/omen-agent-result-mapping.ts:6 | The encoding of an i32 is four bytes whose little-endian value is its 32-bit two's-complement pattern |
| ByteStrings.ConcatI32 | graphs/omen-agentresultmapping/src/omen-agent-result-mapping.ts:6 | The result is the receiver followed by four bytes encoding the integer, so the receiver is its prefix |
| Decimal.DecimalString | graphs/envio-subgraphs/src/EventHandlers.ts:13 | The rendering of a number is non-empty, all digits, has no leading zero, and reads back as the number |
| Decimal.EventId | graphs/envio-subgraphs/src/EventHandlers.ts:13 | The underscore-joined id of a position parses back, at its two underscores, into that chain id, block number and log index |
| Decimal.EventIdInjective | graphs/envio-subgraphs/src/EventHandlers.ts:13 | Two ids are equal exactly when the (chainId, blockNumber, logIndex) triples are equal, because digits never contain an underscore |
| Decimal.EventIdExample | graphs/envio-subgraphs/test/Test.ts:24-29 | Chain 1, block 100, log 1 gives the id "1_100_1" |
| Entities.ThumbnailMapping.MarketAddress | graphs/omen-thumbnailmapping/src/schema.ts:53-60 | Reading an absent `marketAddress` is a required-field error, never a default; a present one reads as the stored bytes |
| Entities.ThumbnailMapping.Id | graphs/omen-thumbnailmapping/src/schema.ts:45-47 | `id` reads the `marketAddress` field: it errs exactly when that is absent and otherwise returns it |
| Entities.ThumbnailMapping.ImageHash | graphs/omen-thumbnailmapping/src/schema.ts:69-76 | Reading an absent `image_hash` is a required-field error, never a default; a present one reads as the stored bytes |
| Entities.ThumbnailMapping.SetMarketAddress | graphs/omen-thumbnailmapping/src/schema.ts:62-67 | After setting, `marketAddress` and `id` both read back the value, `image_hash` and every other field are unchanged |
| Entities.ThumbnailMapping.SetId | graphs/omen-thumbnailmapping/src/schema.ts:45-51 | Setting `id` sets `marketAddress` and the stored `id` field too, and `id` reads back equal to `marketAddress` |
| Entities.ThumbnailMapping.SetImageHash | graphs/omen-thumbnailmapping/src/schema.ts:78-80 | After setting, `image_hash` reads back the value and every other field is unchanged |
| Entities.NewThumbnailMapping | graphs/omen-thumbnailmapping/src/schema.ts:10-13 | A fresh mapping holds only `marketAddress`; `image_hash` reads as an error |
| EntityStore.Set | graphs/omen-thumbnailmapping/src/schema.ts:29 | An upsert makes the key read back the entity, changes no other key, and grows the table by one exactly when the key was new |
| ThumbnailSchema.KeyOf | graphs/omen-thumbnailmapping/src/schema.ts:29-41 | `save` and `load` both use the market address's hex rendering in the thumbnail table as the key, and that key reads back as the address |
| ThumbnailSchema.KeyOfInjective | graphs/omen-thumbnailmapping/src/schema.ts:41 | Two market addresses map to the same store key exactly when they are equal |
| ThumbnailSchema.Load | graphs/omen-thumbnailmapping/src/schema.ts:39-43 | A found mapping is the one stored under the address's key; in a well-typed store it is found exactly when that key is present |
| ThumbnailSchema.Save | graphs/omen-thumbnailmapping/src/schema.ts:15-31 | Fails without `marketAddress`, else fails without `image_hash`; on success `load` of the address returns the entity and no other key changes |
| ThumbnailSchema.SaveLeavesOtherMarkets | graphs/omen-thumbnailmapping/src/schema.ts:29 | After a save, `load` of any other market address returns what it returned before |
| ThumbnailSchema.FreshMappingNeedsImageHash | graphs/omen-thumbnailmapping/src/schema.ts:10-19 | Saving a freshly constructed mapping fails for the missing `image_hash` |
| ThumbnailHandler.HandleImageUpdated | graphs/omen-thumbnailmapping/src/contract.ts:4-15 | Never fails; a mapping created for a new market holds exactly `marketAddress`, `id` and `image_hash`; the market's mapping then reads back the event's address (also as `id`, and in the stored `id` field) and hash; other fields of an existing mapping survive; other keys are unchanged; the count grows by one only for a new market |
| ThumbnailHandler.HandleImageUpdatedIdempotent | graphs/omen-thumbnailmapping/src/contract.ts:4-15 | Handling the same event twice gives the same store as handling it once |
| ThumbnailHandler.LaterImageWins | graphs/omen-thumbnailmapping/src/contract.ts:11-14 | For one market the later event's hash is kept, so two conflicting events give different stores in the two orders |
| ThumbnailHandler.CreateOnEmptyStore | graphs/omen-thumbnailmapping/tests/contract.test.ts:33-47 | From an empty store one event creates exactly one mapping, carrying the event's address and hash and no other field, so no `changer` |
| ThumbnailHandler.UpdateInPlace | graphs/omen-thumbnailmapping/src/contract.ts:5-14 | A second event for a market that already has a mapping keeps the count unchanged and stores the new hash |
| AgentResultHandler.EntityId | graphs/omen-agentresultmapping/src/omen-agent-result-mapping.ts:5-7 | Fails exactly when the log index is 2^32 or more; otherwise the id is the transaction hash followed by four bytes whose little-endian value is the log index |
| AgentResultHandler.KeyOf | graphs/omen-agentresultmapping/src/omen-agent-result-mapping.ts:18 | The entity is saved under the hex rendering of its id, which parses back to the id (assumed generated-schema behaviour) |
| AgentResultHandler.HandlePredictionAdded | graphs/omen-agentresultmapping/src/omen-agent-result-mapping.ts:4-19 | Aborts, writing nothing, exactly when the log index overflows `toI32`; otherwise the event's key holds an entity copying the five parameters and the block number, timestamp and transaction hash, and only that key changes |
| AgentResultHandler.StoredEntityIgnoresStore | graphs/omen-agentresultmapping/src/omen-agent-result-mapping.ts:5-18 | The stored entity is the same whatever the store held before, so an existing entity is wholly replaced |
| AgentResultHandler.KeyInjective | graphs/omen-agentresultmapping/src/omen-agent-result-mapping.ts:6 | For equal hash lengths and log indices the handler accepts, keys are equal exactly when hash and log index are |
| AgentResultHandler.OverflowingLogIndexAborts | graphs/omen-agentresultmapping/src/omen-agent-result-mapping.ts:6 | A log index of 2^32 or more aborts the handler, whatever the store holds |
| EnvioHandlers.HandlePredictionAdded | graphs/envio-subgraphs/src/EventHandlers.ts:11-22 | Sets one record under the position id, copying the five parameters verbatim; no other key or table changes |
| EnvioHandlers.HandleImageUpdated | graphs/envio-subgraphs/src/EventHandlers.ts:24-33 | Sets one record under the position id, copying `marketAddress`, `image_hash` and `changer`; no other key or table changes |
| EnvioHandlers.DistinctPositionsDistinctIds | graphs/envio-subgraphs/src/EventHandlers.ts:26 | Events at different (chain, block, log) positions get different record ids |
| EnvioHandlers.ImageUpdatesNeverMerge | graphs/envio-subgraphs/src/EventHandlers.ts:24-33 | Two updates for one market at different positions leave two records, each with its own hash, and the table grows by two |
| EnvioHandlers.PredictionAddedExample | graphs/envio-subgraphs/test/Test.ts:15-37 | On an empty store, the event at chain 1, block 100, log 1 yields one record keyed "1_100_1" carrying its market address |

## Left out

- `loadInBlock` (`schema.ts:33-37`): block-scoped visibility belongs to the host runtime, and no handler uses it.
- The runtime `ValueKind.BYTES` checks in `save` (`schema.ts:21-28`): every field holds bytes in this model, so those checks cannot fail.
- The host runtimes: graph-ts `store.set`/`store.get`, Envio `context.*.set`, and async handler registration. They are modelled as a plain map.
- Dispatch tables, replay drivers, checkpoints and multi-chain concurrency. None of these exist in the handler code; the runtimes provide them.
- Test scaffolding (`newMockEvent`, the `createXEvent` helpers, `MockDb`, `clearStore`).
- Address widths (20 bytes) and hash widths (32 bytes) are not enforced: any byte string is accepted.
- Decimal.DecimalString: is defined on all naturals, but the model only applies it to Envio positions up to 2^53 - 1. Larger JavaScript numbers are inexact, and from 10^21 a template literal switches to exponent form; neither is modelled.

=== FILE: agent_result_handler.dfy ===
/**
 * `handlePredictionAdded` of the agent-result subgraph: every event becomes
 * a brand-new `PredictionAdded` entity keyed by the transaction hash
 * followed by the four-byte log index, saved without looking at the store.
 */
module AgentResultHandler {
  import opened Results
  import opened ByteStrings
  import opened Entities
  import opened EntityStore

  datatype Block = Block(number: nat, timestamp: nat)

  datatype Transaction = Transaction(hash: Bytes)

  /** The decoded `PredictionAdded` event parameters. */
  datatype PredictionParams = PredictionParams(
    marketAddress: Bytes,
    estimatedProbabilityBps: nat,
    publisherAddress: Bytes,
    txHash: Bytes,
    ipfsHash: Bytes)

  /** A `PredictionAdded` log with the block and transaction it came from. */
  datatype PredictionAddedEvent = PredictionAddedEvent(
    params: PredictionParams,
    block: Block,
    transaction: Transaction,
    logIndex: nat)

  /** Why the handler aborts: `toI32` of the log index overflowed. */
  datatype HandlerError = LogIndexOverflow

  /** The log index survives `toI32`, so the event has an entity id. */
  predicate HasId(ev: PredictionAddedEvent) {
    ev.logIndex < TwoTo32
  }

  /**
   * `event.transaction.hash.concatI32(event.logIndex.toI32())`: the hash
   * bytes, then four bytes whose little-endian value is the log index; a
   * log index of 2^32 or more makes `toI32` throw.
   */
  function EntityId(ev: PredictionAddedEvent): (r: Result<Bytes, HandlerError>)
    ensures r.Ok? <==> HasId(ev)
    ensures r.Err? ==> r.error == LogIndexOverflow
    ensures r.Ok? ==> |r.value| == |ev.transaction.hash| + 4
    ensures r.Ok? ==> r.value[..|ev.transaction.hash|] == ev.transaction.hash
    ensures r.Ok? ==> LittleEndian(r.value[|ev.transaction.hash|..]) == ev.logIndex
  {
    match ToI32(ev.logIndex)
    case Err(_) => Err(LogIndexOverflow)
    case Ok(x) => Ok(ConcatI32(ev.transaction.hash, x))
  }

  /**
   * The store key the generated `save` uses for a `Bytes` id: its hex
   * rendering, from which the id can be read back.
   */
  function KeyOf(ev: PredictionAddedEvent): (k: Key)
    requires HasId(ev)
    ensures k.table == PredictionTable
    ensures ParseHexString(k.id) == Some(EntityId(ev).value)
  {
    Key(PredictionTable, ToHexString(EntityId(ev).value))
  }

  /** `p` carries the event's parameters and provenance unchanged. */
  predicate CopiesEvent(p: PredictionAdded, ev: PredictionAddedEvent) {
    && EntityId(ev) == Ok(p.id)
    && p.marketAddress == ev.params.marketAddress
    && p.estimatedProbabilityBps == ev.params.estimatedProbabilityBps
    && p.publisherAddress == ev.params.publisherAddress
    && p.txHash == ev.params.txHash
    && p.ipfsHash == ev.params.ipfsHash
    && p.blockNumber == ev.block.number
    && p.blockTimestamp == ev.block.timestamp
    && p.transactionHash == ev.transaction.hash
  }

  /**
   * Aborts, writing nothing, when the log index overflows `toI32`.
   * Otherwise writes exactly the event's key, with an entity that copies
   * the event, replacing whatever was there; all other keys are unchanged
   * and the table grows by one exactly when the key is new.
   */
  function HandlePredictionAdded(ev: PredictionAddedEvent, s: Store): (r: Result<Store, HandlerError>)
    ensures r.Ok? <==> HasId(ev)
    ensures r.Err? ==> r.error == LogIndexOverflow
    ensures r.Ok? ==> KeyOf(ev) in r.value && r.value[KeyOf(ev)].Prediction?
    ensures r.Ok? ==> CopiesEvent(r.value[KeyOf(ev)].prediction, ev)
    ensures r.Ok? ==> OnlyChanged(s, r.value, KeyOf(ev))
    ensures r.Ok? ==>
              Count(r.value, PredictionTable) ==
                (if KeyOf(ev) in s then Count(s, PredictionTable) else Count(s, PredictionTable) + 1)
    ensures r.Ok? ==> forall t :: t != PredictionTable ==> Count(r.value, t) == Count(s, t)
    ensures r.Ok? && WellTyped(s) ==> WellTyped(r.value)
  {
    match EntityId(ev)
    case Err(e) => Err(e)
    case Ok(id) =>
      var entity := PredictionAdded(
        id,
        ev.params.marketAddress,
        ev.params.estimatedProbabilityBps,
        ev.params.publisherAddress,
        ev.params.txHash,
        ev.params.ipfsHash,
        ev.block.number,
        ev.block.timestamp,
        ev.transaction.hash);
      Ok(Set(s, KeyOf(ev), Prediction(entity)))
  }

  /** The stored entity depends on the event alone, never on what the store held before. */
  lemma StoredEntityIgnoresStore(ev: PredictionAddedEvent, s1: Store, s2: Store)
    requires HasId(ev)
    ensures HandlePredictionAdded(ev, s1).value[KeyOf(ev)] == HandlePredictionAdded(ev, s2).value[KeyOf(ev)]
  {
  }

  /**
   * Events with the same hash length that the handler accepts share a key
   * only when they share the transaction hash and the log index.
   */
  lemma KeyInjective(e1: PredictionAddedEvent, e2: PredictionAddedEvent)
    requires |e1.transaction.hash| == |e2.transaction.hash|
    requires HasId(e1) && HasId(e2)
    ensures KeyOf(e1) == KeyOf(e2) <==>
              e1.transaction.hash == e2.transaction.hash && e1.logIndex == e2.logIndex
  {
    var id1, id2 := EntityId(e1).value, EntityId(e2).value;
    var n := |e1.transaction.hash|;
    if KeyOf(e1) == KeyOf(e2) {
      HexInjective(id1, id2);
      assert id1[n..] == id2[n..];
    }
  }

  /**
   * A log index of 2^32 or more aborts the handler whatever the store holds,
   * so no entity is ever written for it.
   */
  lemma OverflowingLogIndexAborts(ev: PredictionAddedEvent, s: Store)
    requires ev.logIndex >= TwoTo32
    ensures HandlePredictionAdded(ev, s) == Err(LogIndexOverflow)
  {
  }
}

=== FILE: bytestrings.dfy ===
/**
 * Byte strings as the graph-ts runtime handles them: hex rendering
 * (`Bytes.toHexString`), the signed 32-bit truncation of a big integer
 * (`BigInt.toI32`) and the four-byte little-endian encoding appended by
 * `Bytes.concatI32`.
 */
module ByteStrings {
  import opened Results

  type byte = x: int | 0 <= x < 256
  type Bytes = seq<byte>

  const HexAlphabet: string := "0123456789abcdef"

  const TwoTo31: int := 0x8000_0000
  const TwoTo32: int := 0x1_0000_0000

  // ---------------------------------------------------------------------
  // Hex rendering
  // ---------------------------------------------------------------------

  predicate IsLowerHex(c: char) {
    ('0' <= c <= '9') || ('a' <= c <= 'f')
  }

  /** The lower-case hex digit of a nibble. */
  function HexChar(n: nat): (c: char)
    requires n < 16
    ensures IsLowerHex(c)
    ensures HexValue(c) == Some(n)
  {
    HexAlphabet[n]
  }

  /** The nibble a lower-case hex digit stands for; anything else is not a digit. */
  function HexValue(c: char): (r: Option<nat>)
    ensures r.Some? <==> IsLowerHex(c)
    ensures r.Some? ==> r.value < 16
  {
    if '0' <= c <= '9' then Some(c as int - '0' as int)
    else if 'a' <= c <= 'f' then Some(c as int - 'a' as int + 10)
    else None
  }

  /** Two hex digits per byte, high nibble first, no prefix. */
  function HexDigits(b: Bytes): (s: string)
    ensures |s| == 2 * |b|
    ensures forall i :: 0 <= i < |s| ==> IsLowerHex(s[i])
  {
    if |b| == 0 then ""
    else [HexChar(b[0] / 16), HexChar(b[0] % 16)] + HexDigits(b[1..])
  }

  /**
   * `Bytes.toHexString`: "0x" followed by the lower-case hex digits of every
   * byte; the rendering reads back as the bytes it came from.
   */
  function ToHexString(b: Bytes): (s: string)
    ensures |s| == 2 + 2 * |b|
    ensures s[..2] == "0x"
    ensures forall i :: 2 <= i < |s| ==> IsLowerHex(s[i])
    ensures ParseHexString(s) == Some(b)
  {
    var s := "0x" + HexDigits(b);
    assert s[2..] == HexDigits(b);
    HexDigitsRoundTrip(b);
    s
  }

  /** Reads hex digit pairs back into bytes; an odd length or a stray character is refused. */
  function ParseHexDigits(s: string): Option<Bytes> {
    if |s| == 0 then Some([])
    else if |s| == 1 then None
    else match (HexValue(s[0]), HexValue(s[1]), ParseHexDigits(s[2..]))
      case (Some(hi), Some(lo), Some(rest)) => Some([hi * 16 + lo] + rest)
      case _ => None
  }

  /** Inverse of `ToHexString`: requires the "0x" prefix. */
  function ParseHexString(s: string): Option<Bytes> {
    if |s| >= 2 && s[..2] == "0x" then ParseHexDigits(s[2..]) else None
  }

  lemma {:induction false} HexDigitsRoundTrip(b: Bytes)
    ensures ParseHexDigits(HexDigits(b)) == Some(b)
  {
    if |b| > 0 {
      var s := HexDigits(b);
      HexDigitsRoundTrip(b[1..]);
      assert s[2..] == HexDigits(b[1..]);
      assert b[0] / 16 * 16 + b[0] % 16 == b[0];
      assert [b[0]] + b[1..] == b;
    }
  }

  /** Distinct byte strings render to distinct strings, so a hex key names exactly one byte string. */
  lemma HexInjective(a: Bytes, b: Bytes)
    ensures ToHexString(a) == ToHexString(b) <==> a == b
  {
    if ToHexString(a) == ToHexString(b) {
      assert Some(a) == ParseHexString(ToHexString(a)) == Some(b);
    }
  }

  // ---------------------------------------------------------------------
  // 32-bit integers
  // ---------------------------------------------------------------------

  predicate IsI32(x: int) {
    -TwoTo31 <= x < TwoTo31
  }

  /** `BigInt.toI32` refuses a value whose bytes do not fit in four. */
  datatype I32Error = Overflow

  /**
   * `BigInt.toI32` of a non-negative integer: the value's little-endian
   * bytes must fit in four (any byte past the fourth being non-zero is an
   * overflow, which throws); the four bytes are then read as a two's
   * complement `i32`, so values from 2^31 come out negative.
   */
  function ToI32(n: nat): (r: Result<int, I32Error>)
    ensures r.Err? <==> n >= TwoTo32
    ensures r.Err? ==> r.error == Overflow
    ensures r.Ok? ==> IsI32(r.value) && r.value % TwoTo32 == n
  {
    if n >= TwoTo32 then Err(Overflow)
    else if n >= TwoTo31 then Ok(n - TwoTo32)
    else Ok(n)
  }

  /** Little-endian value of a byte string. */
  function LittleEndian(b: Bytes): nat {
    if |b| == 0 then 0 else b[0] + 256 * LittleEndian(b[1..])
  }

  /** `Bytes.fromI32`: the four bytes of the two's-complement pattern, least significant first. */
  function FromI32(x: int): (r: Bytes)
    requires IsI32(x)
    ensures |r| == 4
    ensures LittleEndian(r) == x % TwoTo32
  {
    var u := x % TwoTo32;
    var q1 := u / 256;
    var q2 := q1 / 256;
    var q3 := q2 / 256;
    assert q3 < 256;
    var r := [u % 256, q1 % 256, q2 % 256, q3];
    assert r[1..][1..][1..] == [q3];
    assert LittleEndian(r[1..][1..][1..]) == q3;
    assert LittleEndian(r[1..][1..]) == q2 % 256 + 256 * q3 == q2;
    assert LittleEndian(r[1..]) == q1 % 256 + 256 * q2 == q1;
    assert LittleEndian(r) == u % 256 + 256 * q1 == u;
    r
  }

  /** `Bytes.concatI32`: the receiver followed by the four-byte encoding of `x`. */
  function ConcatI32(b: Bytes, x: int): (r: Bytes)
    requires IsI32(x)
    ensures |r| == |b| + 4
    ensures r[..|b|] == b
    ensures LittleEndian(r[|b|..]) == x % TwoTo32
  {
    var tail := FromI32(x);
    assert (b + tail)[|b|..] == tail;
    b + tail
  }
}

=== FILE: decimal.dfy ===
/**
 * Decimal rendering of the event positions Envio hands to its handlers, and
 * the underscore-joined event id built from three of them. Positions are
 * JavaScript numbers; those holding integers up to 2^53 - 1 are exact, and a
 * template literal renders them as plain decimal digits.
 */
module Decimal {
  import opened Results

  /** `Number.MAX_SAFE_INTEGER`, the largest integer a JavaScript number holds exactly. */
  const MaxSafeInteger: nat := 0x1F_FFFF_FFFF_FFFF

  /** A chain id, block number or log index as an exact JavaScript integer. */
  type JsIndex = n: nat | n <= MaxSafeInteger

  const Underscore: char := '_'

  predicate IsDigit(c: char) {
    '0' <= c <= '9'
  }

  predicate AllDigits(s: string) {
    forall i :: 0 <= i < |s| ==> IsDigit(s[i])
  }

  function DigitValue(c: char): (d: nat)
    requires IsDigit(c)
  {
    c as int - '0' as int
  }

  function DigitChar(d: nat): (c: char)
    requires d < 10
    ensures IsDigit(c)
    ensures DigitValue(c) == d
  {
    "0123456789"[d]
  }

  /** The number a string of decimal digits denotes, most significant digit first. */
  function DecimalValue(s: string): nat
    requires AllDigits(s)
  {
    if |s| == 0 then 0 else DecimalValue(s[..|s| - 1]) * 10 + DigitValue(s[|s| - 1])
  }

  /**
   * The digits of `n` without leading zeros: `${n}` for a `JsIndex`.
   * The rendering denotes `n`, so it can be read back.
   */
  function DecimalString(n: nat): (s: string)
    ensures |s| > 0
    ensures AllDigits(s)
    ensures s[0] != '0' || |s| == 1
    ensures DecimalValue(s) == n
    decreases n
  {
    if n < 10 then [DigitChar(n)]
    else
      var prefix := DecimalString(n / 10);
      var s := prefix + [DigitChar(n % 10)];
      assert s[..|s| - 1] == prefix;
      s
  }

  /** `a` and `r` joined by one underscore. */
  function Join(a: string, r: string): string {
    a + [Underscore] + r
  }

  /** Position of the first underscore in `s`, or `|s|` when there is none. */
  function FirstUnderscore(s: string): (i: nat)
    ensures i <= |s|
    ensures forall j :: 0 <= j < i ==> s[j] != Underscore
    ensures i < |s| ==> s[i] == Underscore
  {
    if |s| == 0 then 0
    else if s[0] == Underscore then 0
    else 1 + FirstUnderscore(s[1..])
  }

  /** A run of digits joined to anything has its first underscore right after the run. */
  lemma DigitRunEndsAtUnderscore(a: string, r: string)
    requires AllDigits(a)
    ensures FirstUnderscore(Join(a, r)) == |a|
  {
    var s := Join(a, r);
    assert s[|a|] == Underscore;
    assert forall j :: 0 <= j < |a| ==> s[j] == a[j];
  }

  /** A non-empty run of digits read as a number; anything else is refused. */
  function ParseDecimal(s: string): Option<nat> {
    if |s| > 0 && AllDigits(s) then Some(DecimalValue(s)) else None
  }

  /** Splits an id at its first two underscores and reads the three numbers. */
  function ParseEventId(id: string): Option<(nat, nat, nat)> {
    var i := FirstUnderscore(id);
    if i == |id| then None
    else
      var rest := id[i + 1..];
      var j := FirstUnderscore(rest);
      if j == |rest| then None
      else
        match (ParseDecimal(id[..i]), ParseDecimal(rest[..j]), ParseDecimal(rest[j + 1..]))
        case (Some(c), Some(b), Some(l)) => Some((c, b, l))
        case _ => None
  }

  /** `${chainId}_${blockNumber}_${logIndex}`: it reads back as the three positions. */
  function EventId(chainId: JsIndex, blockNumber: JsIndex, logIndex: JsIndex): (id: string)
    ensures ParseEventId(id) == Some((chainId as nat, blockNumber as nat, logIndex as nat))
  {
    var dc, db, dl := DecimalString(chainId), DecimalString(blockNumber), DecimalString(logIndex);
    var tail := Join(db, dl);
    var id := Join(dc, tail);
    DigitRunEndsAtUnderscore(dc, tail);
    DigitRunEndsAtUnderscore(db, dl);
    assert id[..|dc|] == dc && id[|dc| + 1..] == tail;
    assert tail[..|db|] == db && tail[|db| + 1..] == dl;
    id
  }

  /** Two events get the same id exactly when they sit at the same (chain, block, log) position. */
  lemma EventIdInjective(c1: JsIndex, b1: JsIndex, l1: JsIndex, c2: JsIndex, b2: JsIndex, l2: JsIndex)
    ensures EventId(c1, b1, l1) == EventId(c2, b2, l2) <==> (c1, b1, l1) == (c2, b2, l2)
  {
    if EventId(c1, b1, l1) == EventId(c2, b2, l2) {
      assert Some((c1 as nat, b1 as nat, l1 as nat)) == ParseEventId(EventId(c1, b1, l1))
          == Some((c2 as nat, b2 as nat, l2 as nat));
    }
  }

  /** The id of the event at chain 1, block 100, log 1 is "1_100_1". */
  lemma EventIdExample()
    ensures EventId(1, 100, 1) == "1_100_1"
  {
    assert DecimalString(1) == "1";
    assert DecimalString(10) == DecimalString(1) + "0" == "10";
    assert DecimalString(100) == DecimalString(10) + "0" == "100";
  }
}

=== FILE: entities.dfy ===
/**
 * The entity kinds the three indexers write, as one tagged variant.
 *
 * `ThumbnailMapping` keeps the shape of a graph-ts `Entity`: a dynamic map
 * from field name to value, where a field that was never set is simply
 * absent (graph-ts reads it back as null). Its typed accessors are the
 * getters and setters of the generated schema class. The other kinds are
 * plain records whose fields are all present by construction.
 */
module Entities {
  import opened Results
  import opened ByteStrings

  const IdField: string := "id"
  const MarketAddressField: string := "marketAddress"
  const ImageHashField: string := "image_hash"

  /** The error a required-field getter throws when the field holds no value. */
  datatype FieldError = RequiredFieldNull(field: string)

  /**
   * `a` and `b` agree on every field name outside `touched`: the same names
   * are present and they hold the same values.
   */
  ghost predicate AgreeOutside(a: map<string, Bytes>, b: map<string, Bytes>, touched: set<string>) {
    forall f :: f !in touched ==> (f in a <==> f in b) && (f in a ==> a[f] == b[f])
  }

  datatype ThumbnailMapping = ThumbnailMapping(fields: map<string, Bytes>) {

    /**
     * Getter `marketAddress`: an absent field is an error, never a default;
     * a present one reads as exactly the stored bytes.
     */
    function MarketAddress(): (r: Result<Bytes, FieldError>)
      ensures r.Err? <==> MarketAddressField !in fields
      ensures r.Err? ==> r.error == RequiredFieldNull(MarketAddressField)
      ensures r.Ok? ==> r.value == fields[MarketAddressField]
    {
      if MarketAddressField in fields then Ok(fields[MarketAddressField])
      else Err(RequiredFieldNull(MarketAddressField))
    }

    /**
     * Getter `id`: reads `marketAddress`, never the stored `id` field, so it
     * always agrees with `marketAddress`.
     */
    function Id(): (r: Result<Bytes, FieldError>)
      ensures r.Err? <==> MarketAddressField !in fields
      ensures r.Ok? ==> r.value == fields[MarketAddressField]
    {
      MarketAddress()
    }

    /**
     * Getter `image_hash`: an absent field is an error, never a default;
     * a present one reads as exactly the stored bytes.
     */
    function ImageHash(): (r: Result<Bytes, FieldError>)
      ensures r.Err? <==> ImageHashField !in fields
      ensures r.Err? ==> r.error == RequiredFieldNull(ImageHashField)
      ensures r.Ok? ==> r.value == fields[ImageHashField]
    {
      if ImageHashField in fields then Ok(fields[ImageHashField])
      else Err(RequiredFieldNull(ImageHashField))
    }

    /**
     * Setter `marketAddress`: stores the value under both `marketAddress` and
     * `id`; every other field, `image_hash` included, is left as it was.
     */
    function SetMarketAddress(v: Bytes): (r: ThumbnailMapping)
      ensures r.MarketAddress() == Ok(v)
      ensures r.Id() == Ok(v)
      ensures IdField in r.fields && r.fields[IdField] == v
      ensures r.ImageHash() == ImageHash()
      ensures AgreeOutside(fields, r.fields, {MarketAddressField, IdField})
    {
      ThumbnailMapping(fields[MarketAddressField := v][IdField := v])
    }

    /** Setter `id`: the same as setting `marketAddress`. */
    function SetId(v: Bytes): (r: ThumbnailMapping)
      ensures r.Id() == Ok(v) && r.MarketAddress() == Ok(v)
      ensures IdField in r.fields && r.fields[IdField] == v
      ensures r.ImageHash() == ImageHash()
      ensures AgreeOutside(fields, r.fields, {MarketAddressField, IdField})
    {
      SetMarketAddress(v)
    }

    /** Setter `image_hash`: changes that field only. */
    function SetImageHash(v: Bytes): (r: ThumbnailMapping)
      ensures r.ImageHash() == Ok(v)
      ensures r.MarketAddress() == MarketAddress()
      ensures AgreeOutside(fields, r.fields, {ImageHashField})
    {
      ThumbnailMapping(fields[ImageHashField := v])
    }
  }

  /**
   * The schema constructor: seeds `marketAddress` alone, so `image_hash`
   * reads as an error and even the `id` field is still absent.
   */
  function NewThumbnailMapping(marketAddress: Bytes): (r: ThumbnailMapping)
    ensures r.MarketAddress() == Ok(marketAddress)
    ensures r.Id() == Ok(marketAddress)
    ensures r.ImageHash() == Err(RequiredFieldNull(ImageHashField))
    ensures IdField !in r.fields
    ensures r.fields.Keys == {MarketAddressField}
  {
    ThumbnailMapping(map[MarketAddressField := marketAddress])
  }

  /** The subgraph's `PredictionAdded` entity, one per event. */
  datatype PredictionAdded = PredictionAdded(
    id: Bytes,
    marketAddress: Bytes,
    estimatedProbabilityBps: nat,
    publisherAddress: Bytes,
    txHash: Bytes,
    ipfsHash: Bytes,
    blockNumber: nat,
    blockTimestamp: nat,
    transactionHash: Bytes)

  /** Envio's `OmenAgentResultMapping_PredictionAdded` record. */
  datatype EnvioPredictionAdded = EnvioPredictionAdded(
    id: string,
    marketAddress: Bytes,
    estimatedProbabilityBps: nat,
    publisherAddress: Bytes,
    txHashes: seq<Bytes>,
    ipfsHash: Bytes)

  /** Envio's `OmenThumbnailMapping_ImageUpdated` record. */
  datatype EnvioImageUpdated = EnvioImageUpdated(
    id: string,
    marketAddress: Bytes,
    image_hash: Bytes,
    changer: Bytes)

  /** The entity tables, one per entity kind. */
  datatype Table =
    | ThumbnailTable
    | PredictionTable
    | EnvioPredictionTable
    | EnvioImageTable

  datatype Entity =
    | Thumbnail(mapping: ThumbnailMapping)
    | Prediction(prediction: PredictionAdded)
    | EnvioPrediction(envioPrediction: EnvioPredictionAdded)
    | EnvioImage(envioImage: EnvioImageUpdated)

  /** The table an entity of this kind belongs in. */
  function TableOf(e: Entity): Table {
    match e
    case Thumbnail(_) => ThumbnailTable
    case Prediction(_) => PredictionTable
    case EnvioPrediction(_) => EnvioPredictionTable
    case EnvioImage(_) => EnvioImageTable
  }
}

=== FILE: entity_store.dfy ===
/**
 * The entity store the host runtimes provide (`store.set`/`store.get` in
 * graph-ts, `context.<Entity>.set` in Envio): whole-record writes and point
 * reads addressed by entity table and string key.
 */
module EntityStore {
  import opened Results
  import opened Entities

  datatype Key = Key(table: Table, id: string)

  type Store = map<Key, Entity>

  /** Every entity sits in the table of its own kind. */
  ghost predicate WellTyped(s: Store) {
    forall k :: k in s ==> TableOf(s[k]) == k.table
  }

  /** `s` and `s'` agree on every key except possibly `k`. */
  ghost predicate OnlyChanged(s: Store, s': Store, k: Key) {
    forall k' :: k' != k ==> (k' in s <==> k' in s') && (k' in s ==> s[k'] == s'[k'])
  }

  /** Point read: absence is an ordinary answer. */
  function Get(s: Store, k: Key): (r: Option<Entity>)
    ensures r.Some? <==> k in s
    ensures r.Some? ==> r.value == s[k]
  {
    if k in s then Some(s[k]) else None
  }

  function KeysOf(s: Store, t: Table): set<Key> {
    set k | k in s && k.table == t
  }

  /** `entityCount`: how many entities the table holds. */
  function Count(s: Store, t: Table): nat {
    |KeysOf(s, t)|
  }

  lemma CountAfterSet(s: Store, k: Key, e: Entity)
    ensures Count(s[k := e], k.table) == if k in s then Count(s, k.table) else Count(s, k.table) + 1
    ensures forall t :: t != k.table ==> Count(s[k := e], t) == Count(s, t)
  {
    var r := s[k := e];
    if k in s {
      assert KeysOf(r, k.table) == KeysOf(s, k.table);
    } else {
      assert KeysOf(r, k.table) == KeysOf(s, k.table) + {k};
    }
    forall t | t != k.table
      ensures Count(r, t) == Count(s, t)
    {
      assert KeysOf(r, t) == KeysOf(s, t);
    }
  }

  /**
   * Upsert: creates the record if absent, replaces it if present, and
   * touches no other key. The table grows by one exactly when the key is new.
   */
  function Set(s: Store, k: Key, e: Entity): (r: Store)
    ensures Get(r, k) == Some(e)
    ensures OnlyChanged(s, r, k)
    ensures r.Keys == s.Keys + {k}
    ensures Count(r, k.table) == if k in s then Count(s, k.table) else Count(s, k.table) + 1
    ensures forall t :: t != k.table ==> Count(r, t) == Count(s, t)
    ensures WellTyped(s) && TableOf(e) == k.table ==> WellTyped(r)
  {
    CountAfterSet(s, k, e);
    s[k := e]
  }
}

=== FILE: envio_handlers.dfy ===
/**
 * The two Envio handlers: each builds one record whose id is
 * `${chainId}_${blockNumber}_${logIndex}`, copies the event parameters
 * verbatim and sets it into its own table.
 */
module EnvioHandlers {
  import opened ByteStrings
  import opened Decimal
  import opened Entities
  import opened EntityStore

  /** A decoded Envio event: its position and its parameters. */
  datatype EnvioEvent<P> = EnvioEvent(chainId: JsIndex, blockNumber: JsIndex, logIndex: JsIndex, params: P)

  datatype PredictionAddedParams = PredictionAddedParams(
    marketAddress: Bytes,
    estimatedProbabilityBps: nat,
    publisherAddress: Bytes,
    txHashes: seq<Bytes>,
    ipfsHash: Bytes)

  datatype ImageUpdatedParams = ImageUpdatedParams(marketAddress: Bytes, image_hash: Bytes, changer: Bytes)

  /** The record id of an event: its position, never its parameters. */
  function IdOf<P>(ev: EnvioEvent<P>): string {
    EventId(ev.chainId, ev.blockNumber, ev.logIndex)
  }

  /**
   * Sets one `OmenAgentResultMapping_PredictionAdded` record keyed by the
   * event's position, copying the five parameters; nothing else changes.
   */
  function HandlePredictionAdded(ev: EnvioEvent<PredictionAddedParams>, s: Store): (r: Store)
    ensures Key(EnvioPredictionTable, IdOf(ev)) in r
    ensures r[Key(EnvioPredictionTable, IdOf(ev))] == EnvioPrediction(EnvioPredictionAdded(
              IdOf(ev), ev.params.marketAddress, ev.params.estimatedProbabilityBps,
              ev.params.publisherAddress, ev.params.txHashes, ev.params.ipfsHash))
    ensures OnlyChanged(s, r, Key(EnvioPredictionTable, IdOf(ev)))
    ensures Count(r, EnvioPredictionTable) ==
              if Key(EnvioPredictionTable, IdOf(ev)) in s then Count(s, EnvioPredictionTable)
              else Count(s, EnvioPredictionTable) + 1
    ensures forall t :: t != EnvioPredictionTable ==> Count(r, t) == Count(s, t)
    ensures WellTyped(s) ==> WellTyped(r)
  {
    var id := EventId(ev.chainId, ev.blockNumber, ev.logIndex);
    var entity := EnvioPredictionAdded(
      id,
      ev.params.marketAddress,
      ev.params.estimatedProbabilityBps,
      ev.params.publisherAddress,
      ev.params.txHashes,
      ev.params.ipfsHash);
    Set(s, Key(EnvioPredictionTable, id), EnvioPrediction(entity))
  }

  /**
   * Sets one `OmenThumbnailMapping_ImageUpdated` record keyed by the event's
   * position, copying the three parameters; nothing else changes.
   */
  function HandleImageUpdated(ev: EnvioEvent<ImageUpdatedParams>, s: Store): (r: Store)
    ensures Key(EnvioImageTable, IdOf(ev)) in r
    ensures r[Key(EnvioImageTable, IdOf(ev))] == EnvioImage(EnvioImageUpdated(
              IdOf(ev), ev.params.marketAddress, ev.params.image_hash, ev.params.changer))
    ensures OnlyChanged(s, r, Key(EnvioImageTable, IdOf(ev)))
    ensures Count(r, EnvioImageTable) ==
              if Key(EnvioImageTable, IdOf(ev)) in s then Count(s, EnvioImageTable)
              else Count(s, EnvioImageTable) + 1
    ensures forall t :: t != EnvioImageTable ==> Count(r, t) == Count(s, t)
    ensures WellTyped(s) ==> WellTyped(r)
  {
    var id := EventId(ev.chainId, ev.blockNumber, ev.logIndex);
    var entity := EnvioImageUpdated(id, ev.params.marketAddress, ev.params.image_hash, ev.params.changer);
    Set(s, Key(EnvioImageTable, id), EnvioImage(entity))
  }

  /** Events at different positions write different keys. */
  lemma DistinctPositionsDistinctIds<P, Q>(e1: EnvioEvent<P>, e2: EnvioEvent<Q>)
    requires (e1.chainId, e1.blockNumber, e1.logIndex) != (e2.chainId, e2.blockNumber, e2.logIndex)
    ensures IdOf(e1) != IdOf(e2)
  {
    EventIdInjective(e1.chainId, e1.blockNumber, e1.logIndex, e2.chainId, e2.blockNumber, e2.logIndex);
  }

  /**
   * Two image updates for the same market at different positions are kept
   * as two records, neither overwriting the other: the id ignores the market.
   */
  lemma ImageUpdatesNeverMerge(e1: EnvioEvent<ImageUpdatedParams>, e2: EnvioEvent<ImageUpdatedParams>, s: Store)
    requires e1.params.marketAddress == e2.params.marketAddress
    requires (e1.chainId, e1.blockNumber, e1.logIndex) != (e2.chainId, e2.blockNumber, e2.logIndex)
    requires Key(EnvioImageTable, IdOf(e1)) !in s && Key(EnvioImageTable, IdOf(e2)) !in s
    ensures var r := HandleImageUpdated(e2, HandleImageUpdated(e1, s));
            && r[Key(EnvioImageTable, IdOf(e1))].envioImage.image_hash == e1.params.image_hash
            && r[Key(EnvioImageTable, IdOf(e2))].envioImage.image_hash == e2.params.image_hash
            && Count(r, EnvioImageTable) == Count(s, EnvioImageTable) + 2
  {
    DistinctPositionsDistinctIds(e1, e2);
  }

  /** The event at chain 1, block 100, log 1 yields one record keyed "1_100_1" in an empty store. */
  lemma PredictionAddedExample(params: PredictionAddedParams)
    ensures var r := HandlePredictionAdded(EnvioEvent(1, 100, 1, params), map[]);
            && Key(EnvioPredictionTable, "1_100_1") in r
            && r[Key(EnvioPredictionTable, "1_100_1")].envioPrediction.marketAddress == params.marketAddress
            && Count(r, EnvioPredictionTable) == 1
  {
    var ev := EnvioEvent(1, 100, 1, params);
    EventIdExample();
    assert IdOf(ev) == "1_100_1";
    assert KeysOf(map[], EnvioPredictionTable) == {};
  }
}

=== FILE: results.dfy ===
/** Optional values and success/failure results shared by every module of the model. */
module Results {

  /** A value that may be missing: a `load` that finds nothing, a field that was never set. */
  datatype Option<+T> = None | Some(value: T)

  /** The outcome of an operation that can be refused, carrying the reason. */
  datatype Result<+T, +E> = Ok(value: T) | Err(error: E)
}

=== FILE: thumbnail_handler.dfy ===
/**
 * `handleImageUpdated` of the thumbnail subgraph: load the mapping of the
 * event's market or create it, overwrite `marketAddress` and `image_hash`,
 * save.
 */
module ThumbnailHandler {
  import opened Results
  import opened ByteStrings
  import opened Entities
  import opened EntityStore
  import opened ThumbnailSchema

  /** The decoded `ImageUpdated` event parameters. */
  datatype ImageUpdated = ImageUpdated(marketAddress: Bytes, image_hash: Bytes, changer: Bytes)

  /** The fields the handler writes. */
  function TouchedFields(): set<string> {
    {MarketAddressField, IdField, ImageHashField}
  }

  /**
   * `m` reads back the market address (through `marketAddress` and `id`) and
   * the image hash of `ev`, and holds the address in its stored `id` field.
   */
  predicate Reflects(m: ThumbnailMapping, ev: ImageUpdated) {
    && m.MarketAddress() == Ok(ev.marketAddress)
    && m.Id() == Ok(ev.marketAddress)
    && IdField in m.fields && m.fields[IdField] == ev.marketAddress
    && m.ImageHash() == Ok(ev.image_hash)
  }

  /**
   * Never fails (both required fields are set before `save`). Afterwards the
   * market's mapping reflects the event; a newly created mapping holds those
   * three fields and nothing else, while any other field of a mapping that
   * already existed survives; no other key changes; the table grows by one
   * exactly when the market had no entry.
   */
  function HandleImageUpdated(ev: ImageUpdated, s: Store): (r: Result<Store, SaveError>)
    ensures r.Ok?
    ensures Load(r.value, ev.marketAddress).Some?
    ensures Reflects(Load(r.value, ev.marketAddress).value, ev)
    ensures Load(s, ev.marketAddress).None? ==>
              Load(r.value, ev.marketAddress).value.fields.Keys == TouchedFields()
    ensures Load(s, ev.marketAddress).Some? ==>
              AgreeOutside(Load(s, ev.marketAddress).value.fields,
                           Load(r.value, ev.marketAddress).value.fields, TouchedFields())
    ensures OnlyChanged(s, r.value, KeyOf(ev.marketAddress))
    ensures KeyOf(ev.marketAddress) !in s ==> Count(r.value, ThumbnailTable) == Count(s, ThumbnailTable) + 1
    ensures KeyOf(ev.marketAddress) in s ==> Count(r.value, ThumbnailTable) == Count(s, ThumbnailTable)
    ensures forall t :: t != ThumbnailTable ==> Count(r.value, t) == Count(s, t)
    ensures WellTyped(s) ==> WellTyped(r.value)
  {
    var loaded := Load(s, ev.marketAddress);
    var mapping := if loaded.None? then NewThumbnailMapping(ev.marketAddress) else loaded.value;
    var updated := mapping.SetMarketAddress(ev.marketAddress).SetImageHash(ev.image_hash);
    Save(s, updated)
  }

  /** Handling the same event twice in a row leaves the store as handling it once. */
  lemma HandleImageUpdatedIdempotent(ev: ImageUpdated, s: Store)
    ensures HandleImageUpdated(ev, HandleImageUpdated(ev, s).value) == HandleImageUpdated(ev, s)
  {
    var s1 := HandleImageUpdated(ev, s).value;
    var m1 := Load(s1, ev.marketAddress).value;
    var m2 := m1.SetMarketAddress(ev.marketAddress).SetImageHash(ev.image_hash);
    assert IdField in m1.fields && m1.fields[IdField] == ev.marketAddress by {
      var loaded := Load(s, ev.marketAddress);
      var mapping := if loaded.None? then NewThumbnailMapping(ev.marketAddress) else loaded.value;
      var updated := mapping.SetMarketAddress(ev.marketAddress).SetImageHash(ev.image_hash);
      assert m1 == updated;
    }
    assert m2.fields == m1.fields;
    assert s1[KeyOf(ev.marketAddress)] == Thumbnail(m1);
    assert s1[KeyOf(ev.marketAddress) := Thumbnail(m2)] == s1;
    assert HandleImageUpdated(ev, s1) == Save(s1, m2);
  }

  /**
   * Two updates of one market with different hashes, applied in the two
   * orders, end in different stores: the later event's hash wins, so
   * delivery order matters.
   */
  lemma LaterImageWins(e1: ImageUpdated, e2: ImageUpdated, s: Store)
    requires e1.marketAddress == e2.marketAddress
    ensures Load(HandleImageUpdated(e2, HandleImageUpdated(e1, s).value).value, e1.marketAddress).value.ImageHash()
            == Ok(e2.image_hash)
    ensures e1.image_hash != e2.image_hash ==>
              HandleImageUpdated(e2, HandleImageUpdated(e1, s).value)
              != HandleImageUpdated(e1, HandleImageUpdated(e2, s).value)
  {
  }

  /**
   * One event on an empty store creates the market's single mapping,
   * carrying the event's address and hash and no other field (no `changer`).
   */
  lemma CreateOnEmptyStore(ev: ImageUpdated)
    ensures Count(HandleImageUpdated(ev, map[]).value, ThumbnailTable) == 1
    ensures Reflects(Load(HandleImageUpdated(ev, map[]).value, ev.marketAddress).value, ev)
    ensures Load(HandleImageUpdated(ev, map[]).value, ev.marketAddress).value.fields.Keys == TouchedFields()
    ensures "changer" !in Load(HandleImageUpdated(ev, map[]).value, ev.marketAddress).value.fields
  {
    assert KeysOf(map[], ThumbnailTable) == {};
  }

  /**
   * A second event for a market that already has a mapping updates it in
   * place: the count stays the same and the new hash is stored.
   */
  lemma UpdateInPlace(e1: ImageUpdated, e2: ImageUpdated, s: Store)
    requires e1.marketAddress == e2.marketAddress
    ensures var s1 := HandleImageUpdated(e1, s).value;
            var s2 := HandleImageUpdated(e2, s1).value;
            && Count(s2, ThumbnailTable) == Count(s1, ThumbnailTable)
            && Load(s2, e2.marketAddress).value.ImageHash() == Ok(e2.image_hash)
  {
    var s1 := HandleImageUpdated(e1, s).value;
    assert KeyOf(e2.marketAddress) in s1;
  }
}

=== FILE: thumbnail_schema.dfy ===
/**
 * Persistence of `OmenThumbnailMapping`: `save` refuses an entity missing a
 * required field and otherwise writes it under the hex rendering of its
 * market address; `load` reads the same key.
 */
module ThumbnailSchema {
  import opened Results
  import opened ByteStrings
  import opened Entities
  import opened EntityStore

  /** The failed `assert` in `save`, naming the missing required field. */
  datatype SaveError = MissingMarketAddress | MissingImageHash

  /**
   * Where the mapping of a market lives: its address as a hex string, from
   * which the address can be read back.
   */
  function KeyOf(marketAddress: Bytes): (k: Key)
    ensures k.table == ThumbnailTable
    ensures k.id == ToHexString(marketAddress)
    ensures ParseHexString(k.id) == Some(marketAddress)
  {
    Key(ThumbnailTable, ToHexString(marketAddress))
  }

  /** Two markets share a key only if they are the same market. */
  lemma KeyOfInjective(a: Bytes, b: Bytes)
    ensures KeyOf(a) == KeyOf(b) <==> a == b
  {
    HexInjective(a, b);
  }

  /** `OmenThumbnailMapping.load`: the mapping stored for this market, if any. */
  function Load(s: Store, marketAddress: Bytes): (r: Option<ThumbnailMapping>)
    ensures r.Some? ==> Get(s, KeyOf(marketAddress)) == Some(Thumbnail(r.value))
    ensures WellTyped(s) ==> (r.Some? <==> KeyOf(marketAddress) in s)
  {
    var k := KeyOf(marketAddress);
    if k in s && s[k].Thumbnail? then Some(s[k].mapping) else None
  }

  /**
   * `save`: fails, writing nothing, when `marketAddress` is absent and
   * otherwise when `image_hash` is absent; on success the entity is stored
   * under its market address's key, which `load` of that address reads, and
   * no other key changes.
   */
  function Save(s: Store, m: ThumbnailMapping): (r: Result<Store, SaveError>)
    ensures m.MarketAddress().Err? ==> r == Err(MissingMarketAddress)
    ensures m.MarketAddress().Ok? && m.ImageHash().Err? ==> r == Err(MissingImageHash)
    ensures r.Ok? <==> m.MarketAddress().Ok? && m.ImageHash().Ok?
    ensures r.Ok? ==> Load(r.value, m.MarketAddress().value) == Some(m)
    ensures r.Ok? ==> OnlyChanged(s, r.value, KeyOf(m.MarketAddress().value))
    ensures r.Ok? ==> r.value.Keys == s.Keys + {KeyOf(m.MarketAddress().value)}
    ensures r.Ok? && WellTyped(s) ==> WellTyped(r.value)
  {
    if MarketAddressField !in m.fields then Err(MissingMarketAddress)
    else if ImageHashField !in m.fields then Err(MissingImageHash)
    else Ok(Set(s, KeyOf(m.fields[MarketAddressField]), Thumbnail(m)))
  }

  /** Saving the mapping of one market leaves what `load` returns for every other market unchanged. */
  lemma SaveLeavesOtherMarkets(s: Store, m: ThumbnailMapping, other: Bytes)
    requires Save(s, m).Ok?
    requires other != m.MarketAddress().value
    ensures Load(Save(s, m).value, other) == Load(s, other)
  {
    KeyOfInjective(other, m.MarketAddress().value);
  }

  /** A freshly constructed mapping cannot be saved until its `image_hash` is set. */
  lemma FreshMappingNeedsImageHash(s: Store, marketAddress: Bytes)
    ensures Save(s, NewThumbnailMapping(marketAddress)) == Err(MissingImageHash)
  {
  }
}
